=== FILE: README.md ===
# StepperControl motion engine in Dafny

This project models the motion engine of the ESP32 focuser's `StepperControl`
driver. The engine is a poll-driven state machine with two states: Idle
(`inMove` false) and Moving. It turns an absolute target position and a
commanded cruise speed into single ±1 steps. Steps are paced by
`1000000/(speed+1)` µs. In smooth mode they follow a trapezoidal speed ramp
that is updated at most every 50 ms. While idle, the driver is powered down
one second after the last step. An optional temperature compensation moves
the target by `(baseline − current temperature) × coefficient` steps and
starts the move through the same transition as any other move.

The whole state is one immutable `MotorState` record. Every operation is a
pure function from a state to a new state. `Manage` also takes the two clock
readings, `nowMicros` and `nowMillis`, and returns a `Tick`: the new state
plus whether a step pulse was emitted. Pin writes are recorded as levels in
`MotorState.pins`: enable (active low), direction and the three mode-select
lines. The getters of the C++ class are the record's field accessors
(`currentPosition`, `targetPosition`, `direction`, `stepMode`, `moveMode`,
`speed`, `coefficient`, `inMove`, `compensationEnabled`).

Modules:

- `CArith` (c_arith.dfy) holds the C++ integer semantics the code relies on:
  - `Elapsed`: `unsigned long` clock differences, modulo 2^32.
  - `CDiv`: division truncating toward zero.
  - `Bit2`/`Bit1`/`Bit0`: the `& 4`, `& 2`, `& 1` tests.
- `StepperConstants` (stepper_constants.dfy) holds the header's codes, speed
  caps, default acceleration and timing constants.
- `StepperState` (stepper_state.dfy) holds the record, the constructor state
  and the plain setters.
- `StepperMotion` (stepper_motion.dfy) holds the move lifecycle:
  - `GoToTargetPosition` and `StopMovement`;
  - the ramp (`RampSpeed`);
  - the single step (`EmitStep`);
  - `MoveMotor` and `Manage`;
  - a mirror symmetry between increasing and decreasing moves.
- `TemperatureCompensation` (temperature.dfy) holds the baseline latching and
  the compensation move.
- `StepperRuns` (stepper_runs.dfy) covers runs of polls:
  - conservation of distance over any clock trace;
  - that a move started with positive speed arrives, in either move mode,
    when polled once a second.

Properties of the ramp and the compensation that hold only in part, as the
code is written:

- **No floor at the increment.** The ramp-down subtracts one increment
  whenever `speed > acceleration` (lib/StepperControl/StepperControl.cpp:351-353)
  and otherwise sets the speed to the increment (:354-357). So a speed that is
  not a multiple of the increment drops below it, and the next update raises
  it back to the increment. `DecelCanUndershootIncrement` shows this with
  150 → 50 → 100. `DecelFloorForMultiples` proves the floor for speeds that
  are multiples of the default increment. Every speed the firmware issues is
  such a multiple.
- **Speed above the cruise speed.** `speed` is clamped to `targetSpeed` only
  when a step is emitted (:304-316). A ramp update on a tick whose step is not
  yet due can leave `speed` above `targetSpeed`
  (`SpeedCanExceedCruiseBetweenSteps`). The model proves
  `speed <= targetSpeed` right after every emitted step.
- **Speed rise after the cruise point.** Once the cruise point is latched,
  a ramp update never raises a speed of at least one increment
  (`NoRiseAfterCruise`). A cruise speed below the increment is raised to the
  increment in the deceleration zone by the `else` branch at :354-357:
  cruise speed 50 with increment 100 goes 50 → 100
  (`CruiseBelowIncrementRises`).
- **Zero cruise speed.** With `targetSpeed` 0, a per-step move of any
  length and a smooth move of three or more steps never arrive
  (`ZeroCruiseStalls`, `ZeroCruiseFirstStepStalls`, `StalledStaysStalled`).
  A per-step move starts at speed 0 and is never due a step. A smooth move
  ramps up and takes one step. That step clamps the speed to 0 and latches
  the cruise point one step from the start (:304-316). Outside the
  deceleration zone the hold branch then keeps the speed at 0 with `inMove`
  set. A smooth one-step move has arrived with that first step, and the
  next poll stops it. A smooth two-step move is in the deceleration zone
  after its first step, so :354-357 raise the speed to the increment and
  the second step follows. Both are shown for ascending moves from zero
  timestamps under the listed polls (`ZeroCruiseOneStepMoveArrives`,
  `ZeroCruiseTwoStepMoveArrives`).
  The liveness lemmas therefore require a positive cruise speed.
- **Mirror symmetry needs a distinct start and target.** A decreasing move
  behaves as the mirror image of an increasing one only when its start and
  target differ (`RampMirror`, `ManageMirror`). With start and target equal,
  which `setTargetPosition` (:86-89) can bring about in the middle of a move,
  the midway offset is 0 and the decreasing branch (:362-384) handles both
  sides. A smooth motor at 5 then accelerates from 500 to 600 while its
  mirror image at -5 decelerates to 400 (`MirrorFailsWhenTargetIsStart`).
- **Enabled flag.** `compensateTemperature` does not consult the enabled flag
  (:247). Only a latched baseline and an idle motor are required. The enabled
  flag only suppresses the idle power-down.

## Model

| member | source | states |
|---|---|---|
| CArith.Elapsed | lib/StepperControl/StepperControl.cpp:204 | An unsigned `micros()`/`millis()` difference is the true gap when the clock has not wrapped, and the gap across the 2^32 roll-over otherwise. |
| CArith.ElapsedAfterAdvance | lib/StepperControl/StepperControl.cpp:328 | A reading taken `gap` units later (gap below 2^32) measures exactly `gap` elapsed, even across a roll-over. |
| CArith.CDiv | lib/StepperControl/StepperControl.cpp:337 | `midway /= 2` truncates toward zero: the remainder has the sign of the dividend and is smaller than the divisor. |
| CArith.CDivOdd | lib/StepperControl/StepperControl.cpp:337 | Truncating division commutes with negation. This is what makes the two ramp branches symmetric. |
| CArith.LowBits | lib/StepperControl/StepperControl.cpp:104-106 | The three `&` tests on the mode code yield exactly its low three bits, negative codes included. |
| StepperConstants.CapsIncreaseWithFineness | PlatformIO/lib/StepperControl/StepperControl.h:41-50 | A finer microstep resolution has a strictly higher speed cap, and only a finer one. Distinct modes have distinct caps. |
| StepperConstants.StepModesAreTwoBitCodes | PlatformIO/lib/StepperControl/StepperControl.h:41-44 | The four step-mode codes are exactly the values 0..3. |
| StepperState.ModePinsRoundTrip | lib/StepperControl/StepperControl.cpp:101-107 | The levels on the three mode pins decode back to the code modulo 8. For every step-mode code they decode to the code itself, so the pins identify the mode. |
| StepperState.Init | lib/StepperControl/StepperControl.cpp:64-81 | After construction the motor is idle at position 0. Direction is clockwise, the move mode is per-step, the step mode is 1/8 with all mode pins low, the driver is disabled and the acceleration is 100. Both timestamps are 0, the cruise latch is cleared with a zero cruise distance, and compensation is off with coefficient, current temperature and baseline 0. The target speed is a parameter because the constructor leaves it unset. |
| StepperState.SetStepMode | lib/StepperControl/StepperControl.cpp:101-107 | Stores the code and drives the pins so that they decode to the code's low three bits. Neither `speed` nor `targetSpeed` changes. |
| StepperState.SetSpeed | lib/StepperControl/StepperControl.cpp:114-136 | For a known step mode the stored cruise speed is `min(speed, cap)`, so a request at or above the cap stores the cap. For an unknown code the speed is stored unchanged. Nothing else changes. |
| StepperState.SetSpeedIdempotent | lib/StepperControl/StepperControl.cpp:114-136 | Re-issuing the stored cruise speed leaves the state unchanged. |
| StepperState.StepModeChangeKeepsSpeed | lib/StepperControl/StepperControl.cpp:101-136 | Switching the step mode keeps the old cruise speed, even above the new cap. A following `SetSpeed` brings it within the new cap. |
| StepperState.SetterLaws | lib/StepperControl/StepperControl.cpp:86-112 | The position, direction and move-mode setters each write their own field only. Reading back gives the value written, writing back the value read changes nothing, and of two writes to the same setter the last one wins. |
| StepperMotion.GoToTargetPosition | lib/StepperControl/StepperControl.cpp:211-229 | At the target it changes nothing. Otherwise it starts the move at the current position and enables the driver. Smooth mode restarts the ramp at speed 0 and clears the cruise latch. Any other mode jumps to the cruise speed. |
| StepperMotion.GoToHereIsNoOp | lib/StepperControl/StepperControl.cpp:211-213 | Asking an idle motor to go where it already is leaves it idle, and the next tick emits no step. |
| StepperMotion.StopMovement | lib/StepperControl/StepperControl.cpp:231-236 | Ends the move with speed 0 and a cleared cruise distance. Nothing else changes; the position and the target stay. |
| StepperMotion.StopHaltsMotion | lib/StepperControl/StepperControl.cpp:231-236 | After `stopMovement` the next tick emits no step and keeps the position. |
| StepperMotion.HalfDistance | lib/StepperControl/StepperControl.cpp:330-337 | The midway offset lies strictly past the start and at most at the target, on the target's side. It is half the move (truncated) for moves of two or more steps, the whole step for a one-step move, and zero only when the target is the start. |
| StepperMotion.RampSpeed | lib/StepperControl/StepperControl.cpp:326-387 | Nothing changes within 50 ms of the previous update. Otherwise only the speed and the ramp timestamp change. Before the cruise point and before midway, the speed grows by one increment. In the deceleration zone (past midway without cruise, or within the accelerating distance of the target) it shrinks by one increment or is set to the increment, and stays non-zero. Elsewhere it is held. |
| StepperMotion.DecelFloorForMultiples | lib/StepperControl/StepperControl.cpp:351-358 | With the default increment and a speed that is a multiple of it, deceleration never goes below one increment, and the speed stays a multiple. |
| StepperMotion.Decelerate | lib/StepperControl/StepperControl.cpp:351-358 | Away from the target with a speed above the increment, the speed drops by one increment. At the target, or at a speed of at most the increment, it is set to the increment. So it is never zero for a positive increment. |
| StepperMotion.NoRiseAfterCruise | lib/StepperControl/StepperControl.cpp:339-361 | After the cruise point is latched, a ramp update never raises a speed of at least one increment. |
| StepperMotion.CruiseBelowIncrementRises | lib/StepperControl/StepperControl.cpp:348-357 | A latched cruise speed of 50 with increment 100 is raised to 100, above the cruise speed, in the deceleration zone. |
| StepperMotion.DecelCanUndershootIncrement | lib/StepperControl/StepperControl.cpp:351-358 | A speed of 150 with increment 100 decelerates to 50, below the increment, and the next update raises it to 100. |
| StepperMotion.StepInterval | lib/StepperControl/StepperControl.cpp:272 | The interval is the largest whole number of µs of which `speed + 1` fit into one second (at most one second). Consecutive steps are at least that far apart, so at most about `speed + 1` steps happen per second. |
| StepperMotion.DirectionLevel | lib/StepperControl/StepperControl.cpp:274-297 | The direction pin is high exactly when "moving to higher positions" differs from "direction is clockwise". Any non-clockwise code acts as counter-clockwise. |
| StepperMotion.EmitStep | lib/StepperControl/StepperControl.cpp:274-317 | One step moves one position toward the target without passing it. It sets the direction pin by the XOR rule, enables the driver and stamps the time. At or above cruise the speed is clamped to cruise and the cruise point latches. The distance from the start is recorded only on the first latch. Below cruise nothing else changes. |
| StepperMotion.MoveMotor | lib/StepperControl/StepperControl.cpp:263-324 | At the target, the tick stops the move without a step. Otherwise, after the smooth-mode ramp, it steps exactly when the speed is non-zero and the pacing interval has elapsed. When no step is due it leaves the state as ramped. |
| StepperMotion.Manage | lib/StepperControl/StepperControl.cpp:192-209 | Emits at most one step per tick, only while moving, toward the target and never past it. Target, cruise speed and modes never change. Arrival stops the move with speed 0. An idle tick changes only the enable pin: it drives it high exactly when compensation is off and a second has passed since the last step. |
| StepperMotion.SpeedCanExceedCruiseBetweenSteps | lib/StepperControl/StepperControl.cpp:304-316 | The cruise clamp applies only on an emitted step. A ramp update on a tick with no step due can leave speed 3050 above cruise 3000. |
| StepperMotion.RampMirror | lib/StepperControl/StepperControl.cpp:339-384 | For any move whose target differs from its start, the decreasing branch of the ramp computes exactly what the increasing branch computes for the mirrored positions. |
| StepperMotion.ManageMirror | lib/StepperControl/StepperControl.cpp:263-324 | For any move whose target differs from its start, a whole tick commutes with the mirror (positions negated, direction reversed). It emits the same step decision and drives the same direction level. |
| StepperMotion.MirrorFailsWhenTargetIsStart | lib/StepperControl/StepperControl.cpp:330-384 | With start and target both 0, a smooth motor at 5 ramps from 500 to 600, while its mirror image at -5 ramps down to 400. So the ramp does not commute with the mirror there. |
| StepperMotion.DirectionOnlyDrivesPin | lib/StepperControl/StepperControl.cpp:274-297 | The logical direction never changes whether a step happens or which way the position moves. Only the direction pin differs. |
| TemperatureCompensation.EnableTemperatureCompensation | lib/StepperControl/StepperControl.cpp:394-398 | Turns compensation on and discards the baseline. Nothing else changes. |
| TemperatureCompensation.DisableTemperatureCompensation | lib/StepperControl/StepperControl.cpp:400-403 | Turns compensation off. The baseline and everything else stay. |
| TemperatureCompensation.SetCurrentTemperature | lib/StepperControl/StepperControl.cpp:143-151 | Stores the reading and marks the baseline present. The first reading after enabling becomes the baseline; later readings leave it. |
| TemperatureCompensation.Correction | lib/StepperControl/StepperControl.cpp:249 | The correction is zero exactly when the temperature has not moved from the baseline or the coefficient is zero. With whole-degree temperatures, any change under a non-zero coefficient yields a non-zero correction. |
| TemperatureCompensation.CompensateTemperature | lib/StepperControl/StepperControl.cpp:243-259 | Does nothing without a baseline, during a move, or at zero correction. Otherwise it rebases to the current temperature, targets `current + correction` and starts the move through `GoToTargetPosition`. |
| TemperatureCompensation.CompensateIdempotent | lib/StepperControl/StepperControl.cpp:243-259 | A second compensation with no new reading does nothing. |
| TemperatureCompensation.SameTemperatureNoSecondCorrection | lib/StepperControl/StepperControl.cpp:251-253 | After a correction, any later idle state at the same temperature with the rebased baseline gets no further correction. |
| TemperatureCompensation.EnableNeedsFreshBaseline | lib/StepperControl/StepperControl.cpp:394-398 | Right after enabling, compensation does nothing, and the first reading becomes the baseline without causing a correction. |
| TemperatureCompensation.DisableKeepsBaseline | lib/StepperControl/StepperControl.cpp:400-403 | Disabling keeps the baseline. Later readings do not move it, and the correction is still measured from it. |
| TemperatureCompensation.CoefficientScalesCorrection | lib/StepperControl/StepperControl.cpp:138-141 | The coefficient scales the correction and changes nothing else. |
| StepperRuns.Drive | lib/StepperControl/StepperControl.cpp:192-197 | Over any sequence of polls, steps taken plus distance left equal the starting distance. The position stays between its start and the target, and an idle motor takes no step. |
| StepperRuns.StalledStaysStalled | lib/StepperControl/StepperControl.cpp:263-324 | A move at cruise speed 0 and speed 0 (latched outside the deceleration zone in smooth mode) stays in progress without a step over any sequence of polls. |
| StepperRuns.ZeroCruiseStalls | lib/StepperControl/StepperControl.cpp:211-229 | Starting any per-step move with cruise speed 0 leaves it stalled at once. Starting a smooth move of three or more steps leaves it at its start, unlatched, waiting for its first step. |
| StepperRuns.ZeroCruiseFirstStepStalls | lib/StepperControl/StepperControl.cpp:304-316 | For a smooth move with cruise speed 0 and three or more steps to go, whatever the clock readings, the first step leaves the move stalled, and a tick without a step leaves it still waiting for that step. |
| StepperRuns.ZeroCruiseTwoStepMoveArrives | lib/StepperControl/StepperControl.cpp:339-361 | Witness for an ascending smooth two-step move with cruise speed 0, the default increment, zero timestamps and polls at 10, 20 and 30 ms: it arrives after two steps and stops on the third poll. The second step comes from the deceleration zone's reset to the increment. |
| StepperRuns.ZeroCruiseOneStepMoveArrives | lib/StepperControl/StepperControl.cpp:330-344 | Witness for an ascending smooth one-step move with cruise speed 0, the default increment, zero timestamps and polls at 10 and 20 ms: it arrives after one step and stops on the next poll. |
| StepperRuns.GoToIsLive | lib/StepperControl/StepperControl.cpp:211-229 | A move started with positive cruise speed and increment can make progress. A per-step move runs at cruise; a smooth move is at its start, ready to ramp up. |
| StepperRuns.ManageKeepsLive | lib/StepperControl/StepperControl.cpp:263-324 | Whatever the clock readings, a tick keeps a move able to progress. A smooth move never stalls at speed 0 once it has left its start. |
| StepperRuns.LiveTickSteps | lib/StepperControl/StepperControl.cpp:270-273 | A poll one second after the last step (and one ramp period after the last ramp update) steps any progressing move that has not arrived. |
| StepperRuns.LiveMoveArrives | lib/StepperControl/StepperControl.cpp:263-324 | Polled once a second, a progressing move arrives exactly at its target after one step per unit of distance, and one more poll stops it. |
| StepperRuns.MoveCompletes | lib/StepperControl/StepperControl.cpp:211-229 | From rest, a move with positive cruise speed ends exactly at the target in either move mode, one step at a time, without overshoot. |

## Left out

- The serial protocol dispatch, encoder jog, `setup`/`loop` and blocking `while (Motor.isInMove())` loop of PlatformIO/src/main.cpp are not part of this model. They are glue around the engine, and the jog uses floating-point `log()`.
- Hardware calls (`pinMode`, `digitalWrite`, `delayMicroseconds`) are not modelled as calls. Pin writes become recorded levels. The step pulse is the `stepped` flag of a `Tick`. The step pin always ends low, so it is not recorded. The 5 µs pulse widths are left out.
- The constructor's pin-mode setup and its initial sleep and reset levels are left out.
- Clock readings are inputs. `moveMotor` reads `micros()` twice, once for pacing and once, about 10 µs later, for the timestamp. `calculateSpeed` likewise reads `millis()` twice, once for the 50 ms gate (:328) and once for the new ramp timestamp (:385). The model uses one reading for both in each case.
- StepInterval: the code computes the pacing interval in `float` as `(1/(speed+1))*1000000`. The model uses the integer quotient, which can differ by a rounding unit.
- Temperatures are whole numbers, so the correction is an exact integer product rather than a truncated `float` product.
- The 32-bit `unsigned int` overflow of `speed += acceleration` and the 32-bit `long` range of positions are not modelled. Speeds and positions are unbounded integers. Clock differences do model the 32-bit wrap.
- `isInMove` returns an `int` in the code. It is the boolean `inMove` field here, since only 0 and 1 are ever stored.
- The unused `dbg_correction` and `brakeMode` fields and the unused `SC_MAX_SPEED` and `SC_DEFAULT_SPEED` constants are left out.
- There is no setter for `acceleration`, so it stays at its constructor value 100 in every reachable state. The ramp lemmas take it as a field or require the default where the argument needs a fixed increment.
- The ramp-down is not proved to take as many steps as the ramp-up. Only the per-update rules and the eventual arrival are proved.
- StepperRuns.MoveCompletes: arrival is proved for polls spaced one second apart. That spacing is enough for every speed. Other poll spacings are only shown never to overshoot (`Drive`); arrival under them is not proved.

=== FILE: c_arith.dfy ===
/** Integer semantics of the C++ operations the motion engine relies on:
    unsigned 32-bit clock differences, truncating division and bit tests. */
module CArith {

  /** Number of values of an `unsigned long` on the ESP32 target (32 bits). */
  const ULongModulus: int := 0x1_0000_0000

  /** A reading of `micros()`/`millis()`, or a timestamp stored in an `unsigned long`. */
  type ULong = x: int | 0 <= x < ULongModulus

  function Abs(x: int): (a: nat)
    ensures a == x || a == -x
  {
    if x < 0 then -x else x
  }

  /** `now - since` on unsigned longs: the time that passed since `since`,
      counted modulo 2^32 so that a clock roll-over still yields the true gap. */
  function Elapsed(now: ULong, since: ULong): (e: ULong)
    ensures since <= now ==> e == now - since
    ensures now < since ==> e == ULongModulus - (since - now)
  {
    (now - since) % ULongModulus
  }

  /** A reading taken `gap` units after `since`, on a clock that wraps at 2^32. */
  function Advance(since: ULong, gap: nat): ULong
  {
    (since + gap) % ULongModulus
  }

  lemma ElapsedAfterAdvance(since: ULong, gap: nat)
    requires gap < ULongModulus
    ensures Elapsed(Advance(since, gap), since) == gap
  {
  }

  /** C++ `a / b` for `b > 0`: the quotient is truncated toward zero
      (ISO C++ [expr.mul]), unlike Dafny's Euclidean `/`. */
  function CDiv(a: int, b: int): (q: int)
    requires b > 0
    ensures a >= 0 ==> 0 <= a - q * b < b
    ensures a <= 0 ==> -b < a - q * b <= 0
  {
    if a >= 0 then a / b else -((-a) / b)
  }

  /** Truncating division commutes with negation; Euclidean division does not. */
  lemma CDivOdd(a: int, b: int)
    requires b > 0
    ensures CDiv(-a, b) == -CDiv(a, b)
  {
  }

  /** Whether `n & 4`, `n & 2` and `n & 1` are non-zero, for a two's complement `n`. */
  function Bit2(n: int): bool { (n / 4) % 2 == 1 }
  function Bit1(n: int): bool { (n / 2) % 2 == 1 }
  function Bit0(n: int): bool { n % 2 == 1 }

  function BitValue(b: bool): nat { if b then 1 else 0 }

  /** The three bits are exactly the low three bits of `n`
      (two's complement, so also for negative `n`). */
  lemma LowBits(n: int)
    ensures 4 * BitValue(Bit2(n)) + 2 * BitValue(Bit1(n)) + BitValue(Bit0(n)) == n % 8
  {
    var b0, a1 := n % 2, n / 2;
    assert n == 2 * a1 + b0 && 0 <= b0 < 2;
    var b1, a2 := a1 % 2, a1 / 2;
    assert a1 == 2 * a2 + b1 && 0 <= b1 < 2;
    Div4(n, a2, 2 * b1 + b0);
    var b2, a3 := a2 % 2, a2 / 2;
    assert a2 == 2 * a3 + b2 && 0 <= b2 < 2;
    Mod8(n, a3, 4 * b2 + 2 * b1 + b0);
  }

  /** Euclidean quotient and remainder by the constants 4 and 8, read off a
      decomposition. */
  lemma Div4(n: int, q: int, r: int)
    requires n == 4 * q + r && 0 <= r < 4
    ensures n / 4 == q
  {
  }

  lemma Mod8(n: int, q: int, r: int)
    requires n == 8 * q + r && 0 <= r < 8
    ensures n % 8 == r
  {
  }
}

=== FILE: stepper_constants.dfy ===
/** The codes, caps and timing constants of the StepperControl driver header. */
module StepperConstants {

  /** Logical rotation sense. */
  const Clockwise: int := 0
  const CounterClockwise: int := 1

  /** Microstep resolution codes, as driven onto the driver's mode-select pins. */
  const EighthStep: int := 0
  const SixteenthStep: int := 2
  const ThirtySecondStep: int := 1
  const SixtyFourthStep: int := 3

  /** Highest allowed step rate (steps/s) per resolution. */
  const MaxSpeedEighthStep: nat := 3000
  const MaxSpeedSixteenthStep: nat := 5000
  const MaxSpeedThirtySecondStep: nat := 10000
  const MaxSpeedSixtyFourthStep: nat := 20000

  /** Move modes: speed jumps to the target speed, or follows a trapezoidal ramp. */
  const PerStep: int := 0
  const Smooth: int := 1

  /** Speed change (steps/s) applied by one ramp update. */
  const DefaultAcceleration: nat := 100

  const MicrosPerSecond: nat := 1000000

  /** With no move in progress, the driver is disabled this long after the last step. */
  const IdleTimeoutMicros: nat := 1000000

  /** Minimum spacing of two ramp updates. */
  const RampPeriodMillis: nat := 50

  predicate IsStepMode(m: int)
  {
    m == EighthStep || m == SixteenthStep || m == ThirtySecondStep || m == SixtyFourthStep
  }

  /** Microsteps per full step of a resolution code. */
  function Microsteps(m: int): (k: nat)
    requires IsStepMode(m)
    ensures k in {8, 16, 32, 64}
  {
    if m == EighthStep then 8
    else if m == SixteenthStep then 16
    else if m == ThirtySecondStep then 32
    else 64
  }

  /** Speed cap of a resolution code. */
  function MaxSpeed(m: int): (cap: nat)
    requires IsStepMode(m)
    ensures cap > 0
  {
    if m == EighthStep then MaxSpeedEighthStep
    else if m == SixteenthStep then MaxSpeedSixteenthStep
    else if m == ThirtySecondStep then MaxSpeedThirtySecondStep
    else MaxSpeedSixtyFourthStep
  }

  /** Finer microstepping allows a strictly higher step rate, and only finer does. */
  lemma CapsIncreaseWithFineness(m1: int, m2: int)
    requires IsStepMode(m1) && IsStepMode(m2)
    ensures Microsteps(m1) < Microsteps(m2) <==> MaxSpeed(m1) < MaxSpeed(m2)
    ensures m1 != m2 ==> MaxSpeed(m1) != MaxSpeed(m2)
  {
  }

  /** The four resolution codes are exactly the values 0..3, so their
      low three bits identify the mode. */
  lemma StepModesAreTwoBitCodes(m: int)
    ensures IsStepMode(m) <==> 0 <= m < 4
  {
  }
}

=== FILE: stepper_motion.dfy ===
/** The move lifecycle: move start and stop, the speed ramp, the single step
    and the per-tick `Manage` transition. */
module StepperMotion {
  import opened CArith
  import opened StepperConstants
  import opened StepperState

  /** What one tick produced: the new state and whether a step pulse was emitted. */
  datatype Tick = Tick(state: MotorState, stepped: bool)

  /** Steps left to the target. */
  function Distance(s: MotorState): nat
  {
    Abs(s.targetPosition - s.currentPosition)
  }

  /** `x` lies on the closed segment between `a` and `b`. */
  predicate Between(a: int, x: int, b: int)
  {
    (a <= x <= b) || (b <= x <= a)
  }

  // ---------------------------------------------------------------------------
  // Move start and stop

  /** Starts a move towards `targetPosition` unless the motor is already there. */
  function GoToTargetPosition(s: MotorState): (r: MotorState)
    ensures s.currentPosition == s.targetPosition ==> r == s
    ensures s.currentPosition != s.targetPosition ==>
      && r.inMove
      && r.startPosition == s.currentPosition
      && r.pins == s.pins.(enable := Low)
      && (s.moveMode == Smooth ==>
            r.speed == 0 && !r.targetSpeedReached && r.positionTargetSpeedReached == 0)
      && (s.moveMode != Smooth ==>
            && r.speed == s.targetSpeed
            && r.targetSpeedReached == s.targetSpeedReached
            && r.positionTargetSpeedReached == s.positionTargetSpeedReached)
      && r == s.(inMove := true, startPosition := r.startPosition, speed := r.speed,
                 targetSpeedReached := r.targetSpeedReached,
                 positionTargetSpeedReached := r.positionTargetSpeedReached, pins := r.pins)
  {
    if s.currentPosition != s.targetPosition then
      var ramped :=
        if s.moveMode == Smooth then
          s.(speed := 0, targetSpeedReached := false, positionTargetSpeedReached := 0)
        else
          s.(speed := s.targetSpeed);
      ramped.(startPosition := s.currentPosition, pins := s.pins.(enable := Low), inMove := true)
    else
      s
  }

  /** Ends the move at once; positions and pins are left as they are. */
  function StopMovement(s: MotorState): (r: MotorState)
    ensures !r.inMove && r.speed == 0 && r.positionTargetSpeedReached == 0
    ensures r == s.(inMove := false, speed := 0, positionTargetSpeedReached := 0)
  {
    s.(inMove := false, speed := 0, positionTargetSpeedReached := 0)
  }

  // ---------------------------------------------------------------------------
  // Speed ramp

  /** Offset from `start` to the ramp's midway point, with C truncating
      division; a one-step move is doubled first so that the offset is not zero. */
  function HalfDistance(start: int, target: int): (h: int)
    ensures target > start ==> 0 < h <= target - start
    ensures target < start ==> target - start <= h < 0
    ensures target == start ==> h == 0
    ensures Abs(target - start) >= 2 ==> Abs(h) == Abs(target - start) / 2
  {
    var d := target - start;
    var d' := if Abs(d) == 1 then d * 2 else d;
    CDiv(d', 2)
  }

  /** The move runs towards increasing positions (as the ramp sees it). */
  predicate Ascending(s: MotorState)
  {
    HalfDistance(s.startPosition, s.targetPosition) > 0
  }

  function Midway(s: MotorState): int
  {
    s.startPosition + HalfDistance(s.startPosition, s.targetPosition)
  }

  /** Cruise speed not yet reached and the midway point not yet reached. */
  predicate InAccelZone(s: MotorState)
  {
    && !s.targetSpeedReached
    && (if Ascending(s) then s.currentPosition < Midway(s) else s.currentPosition > Midway(s))
  }

  /** Past midway without having reached cruise speed, or within
      `positionTargetSpeedReached` steps of the target: the deceleration
      distance mirrors the distance spent accelerating. */
  predicate InDecelZone(s: MotorState)
  {
    && !InAccelZone(s)
    && if Ascending(s) then
         (!s.targetSpeedReached && s.currentPosition > Midway(s))
         || s.currentPosition >= s.targetPosition - s.positionTargetSpeedReached
       else
         (!s.targetSpeedReached && s.currentPosition < Midway(s))
         || s.currentPosition <= s.positionTargetSpeedReached + s.targetPosition
  }

  /** One ramp update, taken only when at least 50 ms have passed since the
      previous one. Accelerating adds one increment; decelerating removes one
      but never reaches zero; elsewhere (cruising) the speed is held. */
  function RampSpeed(s: MotorState, nowMillis: ULong): (r: MotorState)
    ensures Elapsed(nowMillis, s.accelTimestamp) < RampPeriodMillis ==> r == s
    ensures Elapsed(nowMillis, s.accelTimestamp) >= RampPeriodMillis ==>
      && r == s.(speed := r.speed, accelTimestamp := nowMillis)
      && (InAccelZone(s) ==> r.speed == s.speed + s.acceleration)
      && (InDecelZone(s) ==> r.speed <= s.speed || r.speed == s.acceleration)
      && (InDecelZone(s) && s.currentPosition != s.targetPosition && s.speed > s.acceleration ==>
            r.speed + s.acceleration == s.speed)
      && (InDecelZone(s) && (s.currentPosition == s.targetPosition || s.speed <= s.acceleration) ==>
            r.speed == s.acceleration)
      && (InDecelZone(s) && s.acceleration > 0 ==> r.speed > 0)
      && (!InAccelZone(s) && !InDecelZone(s) ==> r.speed == s.speed)
  {
    if Elapsed(nowMillis, s.accelTimestamp) >= RampPeriodMillis then
      var half := HalfDistance(s.startPosition, s.targetPosition);
      var speed :=
        if half > 0 then
          var midway := half + s.startPosition;
          if !s.targetSpeedReached && s.currentPosition < midway then
            s.speed + s.acceleration
          else if (!s.targetSpeedReached && s.currentPosition > midway)
                  || s.currentPosition >= s.targetPosition - s.positionTargetSpeedReached then
            Decelerate(s)
          else
            s.speed
        else
          var midway := s.startPosition - -1 * half;
          if !s.targetSpeedReached && s.currentPosition > midway then
            s.speed + s.acceleration
          else if (!s.targetSpeedReached && s.currentPosition < midway)
                  || s.currentPosition <= s.positionTargetSpeedReached + s.targetPosition then
            Decelerate(s)
          else
            s.speed;
      s.(speed := speed, accelTimestamp := nowMillis)
    else
      s
  }

  /** The decelerating speed: one increment less while that stays above zero
      and the target is not reached, else the increment itself. It never
      stops a motor with a positive increment, and it only ever lowers the
      speed except when it resets it to the increment. */
  function Decelerate(s: MotorState): (d: nat)
    ensures s.acceleration > 0 ==> d > 0
    ensures s.acceleration > 0 ==> d < s.speed || d == s.acceleration
    ensures d != s.acceleration ==> d + s.acceleration == s.speed
    ensures s.currentPosition == s.targetPosition ==> d == s.acceleration
    ensures s.currentPosition != s.targetPosition && s.speed > s.acceleration ==>
              d + s.acceleration == s.speed
    ensures s.speed <= s.acceleration ==> d == s.acceleration
  {
    if s.targetPosition != s.currentPosition && s.speed > s.acceleration then
      s.speed - s.acceleration
    else
      s.acceleration
  }

  /** The speed a ramp update sets, by zone. */
  lemma RampSpeedByZone(s: MotorState, nowMillis: ULong)
    requires Elapsed(nowMillis, s.accelTimestamp) >= RampPeriodMillis
    ensures RampSpeed(s, nowMillis).speed ==
      if InAccelZone(s) then s.speed + s.acceleration
      else if InDecelZone(s) then Decelerate(s)
      else s.speed
  {
  }

  /** When speeds are whole multiples of the increment (as every speed the
      firmware issues is), deceleration never drops below one increment. */
  lemma DecelFloorForMultiples(s: MotorState, nowMillis: ULong)
    requires s.acceleration == DefaultAcceleration && s.speed % DefaultAcceleration == 0
    requires Elapsed(nowMillis, s.accelTimestamp) >= RampPeriodMillis && InDecelZone(s)
    ensures RampSpeed(s, nowMillis).speed >= DefaultAcceleration
    ensures RampSpeed(s, nowMillis).speed % DefaultAcceleration == 0
  {
    RampSpeedByZone(s, nowMillis);
  }

  /** A speed that is not a multiple of the increment falls below one
      increment and then jumps back up to it. */
  lemma DecelCanUndershootIncrement()
    ensures var s := Init(250).(moveMode := Smooth, inMove := true, targetPosition := 10,
                                currentPosition := 9, speed := 150, targetSpeedReached := true,
                                positionTargetSpeedReached := 3);
            && InDecelZone(s)
            && RampSpeed(s, 50).speed == 50
            && RampSpeed(RampSpeed(s, 50), 100).speed == 100
  {
  }

  /** Once the cruise point is latched, a ramp update never raises a speed
      of at least one increment: it holds it, or lowers it in the
      deceleration zone. */
  lemma {:induction false} NoRiseAfterCruise(s: MotorState, nowMillis: ULong)
    requires s.targetSpeedReached && s.speed >= s.acceleration
    ensures RampSpeed(s, nowMillis).speed <= s.speed
  {
    if Elapsed(nowMillis, s.accelTimestamp) >= RampPeriodMillis {
      RampSpeedByZone(s, nowMillis);
      assert !InAccelZone(s);
    }
  }

  /** A cruise speed below the increment is not held after the latch: in the
      deceleration zone the speed is raised to the increment. */
  lemma CruiseBelowIncrementRises()
    ensures var s := Init(50).(moveMode := Smooth, inMove := true, targetPosition := 10,
                               currentPosition := 9, speed := 50, targetSpeedReached := true,
                               positionTargetSpeedReached := 3);
            && InDecelZone(s)
            && RampSpeed(s, 50).speed == 100 > s.targetSpeed
  {
  }

  // ---------------------------------------------------------------------------
  // One step

  /** Minimum time between two steps at `speed` steps per second: the
      largest whole number of microseconds of which `speed + 1` fit in a second. */
  function StepInterval(speed: nat): (i: nat)
    ensures i <= MicrosPerSecond
    ensures i * (speed + 1) <= MicrosPerSecond < (i + 1) * (speed + 1)
  {
    var i := MicrosPerSecond / (speed + 1);
    assert MicrosPerSecond == i * (speed + 1) + MicrosPerSecond % (speed + 1);
    i
  }

  /** Direction-pin level for a step: Low means "increasing position" when the
      logical direction is clockwise and "decreasing position" otherwise; any
      code other than clockwise counts as counter-clockwise. */
  function DirectionLevel(increasing: bool, direction: int): (l: Level)
    ensures l == High <==> increasing != (direction == Clockwise)
  {
    if increasing then
      if direction == Clockwise then Low else High
    else
      if direction == Clockwise then High else Low
  }

  /** Emits one step towards the target at time `nowMicros`, then clamps the
      speed to the cruise speed and latches the cruise point. */
  function EmitStep(s: MotorState, nowMicros: ULong): (r: MotorState)
    requires s.currentPosition != s.targetPosition
    ensures r.targetPosition == s.targetPosition && r.startPosition == s.startPosition
    ensures Distance(r) + 1 == Distance(s)
    ensures Between(s.currentPosition, r.currentPosition, s.targetPosition)
    ensures r.pins == s.pins.(enable := Low, dir := r.pins.dir)
    ensures r.pins.dir == High <==> (s.targetPosition > s.currentPosition) != (s.direction == Clockwise)
    ensures r.lastMovementTimestamp == nowMicros
    ensures r.speed <= r.targetSpeed
    ensures s.speed >= s.targetSpeed ==>
      && r.speed == s.targetSpeed && r.targetSpeedReached
      && (!s.targetSpeedReached ==> r.positionTargetSpeedReached == Abs(s.startPosition - r.currentPosition))
      && (s.targetSpeedReached ==> r.positionTargetSpeedReached == s.positionTargetSpeedReached)
    ensures s.speed < s.targetSpeed ==>
      && r.speed == s.speed && r.targetSpeedReached == s.targetSpeedReached
      && r.positionTargetSpeedReached == s.positionTargetSpeedReached
    ensures r == s.(currentPosition := r.currentPosition, pins := r.pins, speed := r.speed,
                    targetSpeedReached := r.targetSpeedReached,
                    positionTargetSpeedReached := r.positionTargetSpeedReached,
                    lastMovementTimestamp := nowMicros)
  {
    var increasing := s.targetPosition - s.currentPosition > 0;
    var moved := s.(
      currentPosition := if increasing then s.currentPosition + 1 else s.currentPosition - 1,
      pins := s.pins.(dir := DirectionLevel(increasing, s.direction), enable := Low));
    var latched :=
      if moved.speed >= moved.targetSpeed then
        moved.(
          positionTargetSpeedReached :=
            if !moved.targetSpeedReached then Abs(moved.startPosition - moved.currentPosition)
            else moved.positionTargetSpeedReached,
          speed := moved.targetSpeed,
          targetSpeedReached := true)
      else
        moved;
    latched.(lastMovementTimestamp := nowMicros)
  }

  /** The step is due: the speed is non-zero and its interval has passed. */
  predicate StepDue(s: MotorState, nowMicros: ULong)
  {
    s.speed != 0 && Elapsed(nowMicros, s.lastMovementTimestamp) >= StepInterval(s.speed)
  }

  /** The state the step decision sees: ramped first in smooth mode. */
  function Ramped(s: MotorState, nowMillis: ULong): MotorState
  {
    if s.moveMode == Smooth then RampSpeed(s, nowMillis) else s
  }

  /** One tick of a move in progress. */
  function MoveMotor(s: MotorState, nowMicros: ULong, nowMillis: ULong): (t: Tick)
    ensures var m := Ramped(s, nowMillis);
      && (s.currentPosition == s.targetPosition ==> !t.stepped && t.state == StopMovement(m))
      && (s.currentPosition != s.targetPosition ==>
            && t.state.inMove == m.inMove
            && (t.stepped <==> StepDue(m, nowMicros))
            && (t.stepped ==> t.state == EmitStep(m, nowMicros))
            && (!t.stepped ==> t.state == m))
  {
    var m := Ramped(s, nowMillis);
    if m.targetPosition != m.currentPosition then
      if StepDue(m, nowMicros) then
        Tick(EmitStep(m, nowMicros), true)
      else
        Tick(m, false)
    else
      Tick(StopMovement(m), false)
  }

  /** Whether the idle power-down fires: compensation is off and a second has
      passed since the last step. */
  predicate IdleTimeoutDue(s: MotorState, nowMicros: ULong)
  {
    !s.compensationEnabled && Elapsed(nowMicros, s.lastMovementTimestamp) >= IdleTimeoutMicros
  }

  /** One poll of the engine, given the current microsecond and millisecond
      clock readings. At most one step is emitted, always towards the target,
      and never past it; an idle tick only ever powers the driver down. */
  function Manage(s: MotorState, nowMicros: ULong, nowMillis: ULong): (t: Tick)
    ensures t.state.targetPosition == s.targetPosition
    ensures t.state.targetSpeed == s.targetSpeed && t.state.acceleration == s.acceleration
    ensures t.state.direction == s.direction && t.state.moveMode == s.moveMode
    ensures t.state.stepMode == s.stepMode
    ensures Between(s.currentPosition, t.state.currentPosition, s.targetPosition)
    ensures t.stepped ==>
      && s.inMove && Distance(t.state) + 1 == Distance(s)
      && t.state.lastMovementTimestamp == nowMicros
      && t.state.speed <= t.state.targetSpeed
      && t.state.pins.enable == Low
    ensures !t.stepped ==>
      && t.state.currentPosition == s.currentPosition
      && t.state.lastMovementTimestamp == s.lastMovementTimestamp
    ensures s.inMove && s.currentPosition == s.targetPosition ==>
      !t.stepped && !t.state.inMove && t.state.speed == 0 && t.state.positionTargetSpeedReached == 0
    ensures s.inMove && s.currentPosition != s.targetPosition ==> t.state.inMove
    ensures !s.inMove ==> !t.stepped && t.state == s.(pins := t.state.pins)
    ensures !s.inMove && IdleTimeoutDue(s, nowMicros) ==> t.state.pins == s.pins.(enable := High)
    ensures !s.inMove && !IdleTimeoutDue(s, nowMicros) ==> t.state == s
  {
    if s.inMove then
      MoveMotor(s, nowMicros, nowMillis)
    else if s.compensationEnabled then
      Tick(s, false)
    else if Elapsed(nowMicros, s.lastMovementTimestamp) >= IdleTimeoutMicros then
      Tick(s.(pins := s.pins.(enable := High)), false)
    else
      Tick(s, false)
  }

  /** The cruise clamp applies only when a step is emitted: a ramp update on a
      tick whose step is not yet due can leave the speed above the cruise speed
      until the next step. */
  lemma SpeedCanExceedCruiseBetweenSteps()
    ensures var s := Init(3000).(moveMode := Smooth, inMove := true, targetPosition := 1000,
                                 currentPosition := 10, speed := 2950,
                                 lastMovementTimestamp := 100);
            var t := Manage(s, 100, 50);
            && !t.stepped && t.state.inMove
            && t.state.speed == 3050 && t.state.speed > t.state.targetSpeed
  {
    var s := Init(3000).(moveMode := Smooth, inMove := true, targetPosition := 1000,
                         currentPosition := 10, speed := 2950, lastMovementTimestamp := 100);
    assert HalfDistance(0, 1000) == 500;
    assert InAccelZone(s);
  }

  /** After a stop, the next tick emits no step and does not move. */
  lemma StopHaltsMotion(s: MotorState, nowMicros: ULong, nowMillis: ULong)
    ensures !Manage(StopMovement(s), nowMicros, nowMillis).stepped
    ensures Manage(StopMovement(s), nowMicros, nowMillis).state.currentPosition == s.currentPosition
  {
  }

  /** Starting a move at the current position does nothing, and its next tick
      emits no step. */
  lemma GoToHereIsNoOp(s: MotorState, nowMicros: ULong, nowMillis: ULong)
    requires !s.inMove && s.currentPosition == s.targetPosition
    ensures !GoToTargetPosition(s).inMove
    ensures !Manage(GoToTargetPosition(s), nowMicros, nowMillis).stepped
  {
  }

  // ---------------------------------------------------------------------------
  // Mirror symmetry

  /** The logical direction that reverses which level means "increasing". */
  function Flip(direction: int): int
  {
    if direction == Clockwise then CounterClockwise else Clockwise
  }

  /** The same motor seen in a mirror: every position negated and the
      logical direction reversed. */
  function Mirror(s: MotorState): MotorState
  {
    s.(startPosition := -s.startPosition, currentPosition := -s.currentPosition,
       targetPosition := -s.targetPosition, direction := Flip(s.direction))
  }

  lemma {:induction false} HalfDistanceMirror(start: int, target: int)
    ensures HalfDistance(-start, -target) == -HalfDistance(start, target)
  {
    var d := target - start;
    var d' := if Abs(d) == 1 then d * 2 else d;
    CDivOdd(d', 2);
  }

  /** The mirror swaps the sense of the move but keeps every ramp zone. */
  lemma {:induction false} ZonesMirror(s: MotorState)
    requires s.startPosition != s.targetPosition
    ensures Ascending(Mirror(s)) <==> !Ascending(s)
    ensures Midway(Mirror(s)) == -Midway(s)
    ensures InAccelZone(Mirror(s)) <==> InAccelZone(s)
    ensures InDecelZone(Mirror(s)) <==> InDecelZone(s)
    ensures Decelerate(Mirror(s)) == Decelerate(s)
  {
    HalfDistanceMirror(s.startPosition, s.targetPosition);
  }

  /** The ramp treats a decreasing move exactly like the increasing move seen
      in a mirror. This needs C's truncating division: with a Euclidean
      midway, a move of -3 steps would put its midway one step further out. */
  lemma {:induction false} RampMirror(s: MotorState, nowMillis: ULong)
    requires s.startPosition != s.targetPosition
    ensures RampSpeed(Mirror(s), nowMillis) == Mirror(RampSpeed(s, nowMillis))
  {
    if Elapsed(nowMillis, s.accelTimestamp) >= RampPeriodMillis {
      ZonesMirror(s);
      RampSpeedByZone(s, nowMillis);
      RampSpeedByZone(Mirror(s), nowMillis);
    }
  }

  /** Without a distinct start and target the ramp is not symmetric: with
      start and target both 0 (a target moved back to the start mid-move), a
      motor at 5 takes the "descending" branch and counts as before midway,
      while its mirror image at -5 counts as past midway. */
  lemma MirrorFailsWhenTargetIsStart(s: MotorState, nowMillis: ULong)
    requires s.startPosition == 0 && s.targetPosition == 0 && s.currentPosition == 5
    requires s.speed == 500 && s.acceleration == DefaultAcceleration && !s.targetSpeedReached
    requires Elapsed(nowMillis, s.accelTimestamp) >= RampPeriodMillis
    ensures RampSpeed(s, nowMillis).speed == 600
    ensures RampSpeed(Mirror(s), nowMillis).speed == 400
    ensures RampSpeed(Mirror(s), nowMillis) != Mirror(RampSpeed(s, nowMillis))
  {
    assert HalfDistance(0, 0) == 0;
  }

  lemma {:induction false} EmitStepMirror(s: MotorState, nowMicros: ULong)
    requires s.currentPosition != s.targetPosition
    ensures EmitStep(Mirror(s), nowMicros) == Mirror(EmitStep(s, nowMicros))
  {
    var increasing := s.targetPosition - s.currentPosition > 0;
    assert DirectionLevel(!increasing, Flip(s.direction)) == DirectionLevel(increasing, s.direction);
  }

  lemma {:induction false} MoveMotorMirror(s: MotorState, nowMicros: ULong, nowMillis: ULong)
    requires s.startPosition != s.targetPosition
    ensures MoveMotor(Mirror(s), nowMicros, nowMillis)
         == Tick(Mirror(MoveMotor(s, nowMicros, nowMillis).state), MoveMotor(s, nowMicros, nowMillis).stepped)
  {
    var m := Ramped(s, nowMillis);
    if s.moveMode == Smooth {
      RampMirror(s, nowMillis);
    }
    assert Ramped(Mirror(s), nowMillis) == Mirror(m);
    if m.currentPosition != m.targetPosition {
      if StepDue(m, nowMicros) {
        EmitStepMirror(m, nowMicros);
      }
    } else {
      assert StopMovement(Mirror(m)) == Mirror(StopMovement(m));
    }
  }

  /** A whole tick commutes with the mirror: a decreasing move emits the same
      steps at the same instants as its mirrored increasing move, drives the
      same direction level, and ends in the mirrored state. */
  lemma {:induction false} ManageMirror(s: MotorState, nowMicros: ULong, nowMillis: ULong)
    requires s.startPosition != s.targetPosition
    ensures Manage(Mirror(s), nowMicros, nowMillis)
         == Tick(Mirror(Manage(s, nowMicros, nowMillis).state), Manage(s, nowMicros, nowMillis).stepped)
  {
    if s.inMove {
      MoveMotorMirror(s, nowMicros, nowMillis);
    }
  }

  /** Same state up to the logical direction and the direction-pin level. */
  predicate SameButDirection(a: MotorState, b: MotorState)
  {
    b == a.(direction := b.direction, pins := a.pins.(dir := b.pins.dir))
  }

  lemma {:induction false} RampIgnoresDirection(s: MotorState, direction: int, nowMillis: ULong)
    ensures RampSpeed(s.(direction := direction), nowMillis) == RampSpeed(s, nowMillis).(direction := direction)
  {
    if Elapsed(nowMillis, s.accelTimestamp) >= RampPeriodMillis {
      RampSpeedByZone(s, nowMillis);
      RampSpeedByZone(s.(direction := direction), nowMillis);
    }
  }

  lemma {:induction false} EmitStepDirection(s: MotorState, direction: int, nowMicros: ULong)
    requires s.currentPosition != s.targetPosition
    ensures SameButDirection(EmitStep(s, nowMicros), EmitStep(s.(direction := direction), nowMicros))
  {
  }

  lemma {:induction false} MoveMotorDirection(s: MotorState, direction: int, nowMicros: ULong, nowMillis: ULong)
    ensures var a := MoveMotor(s, nowMicros, nowMillis);
            var b := MoveMotor(s.(direction := direction), nowMicros, nowMillis);
            a.stepped == b.stepped && SameButDirection(a.state, b.state)
  {
    var m := Ramped(s, nowMillis);
    if s.moveMode == Smooth {
      RampIgnoresDirection(s, direction, nowMillis);
    }
    assert Ramped(s.(direction := direction), nowMillis) == m.(direction := direction);
    if m.currentPosition != m.targetPosition && StepDue(m, nowMicros) {
      EmitStepDirection(m, direction, nowMicros);
    }
  }

  /** The logical direction only decides the direction-pin level: the step
      decision and every other field are the same for any direction code. */
  lemma {:induction false} DirectionOnlyDrivesPin(s: MotorState, direction: int, nowMicros: ULong, nowMillis: ULong)
    ensures var a := Manage(s, nowMicros, nowMillis);
            var b := Manage(s.(direction := direction), nowMicros, nowMillis);
            a.stepped == b.stepped && SameButDirection(a.state, b.state)
  {
    if s.inMove {
      MoveMotorDirection(s, direction, nowMicros, nowMillis);
    }
  }
}

=== FILE: stepper_runs.dfy ===
/** Sequences of `Manage` polls: what a whole run of ticks can and must do. */
module StepperRuns {
  import opened CArith
  import opened StepperConstants
  import opened StepperState
  import opened StepperMotion

  /** The two clock readings one poll sees. */
  datatype Clock = Clock(micros: ULong, millis: ULong)

  /** The state after a run of polls and the number of steps emitted. */
  datatype Run = Run(final: MotorState, steps: nat)

  /** Polls the engine once per clock reading, in order. Whatever the
      readings, every step counts against the distance to the target, so the
      motor never passes the target and the target itself never changes. */
  function Drive(s: MotorState, clocks: seq<Clock>): (r: Run)
    ensures r.final.targetPosition == s.targetPosition
    ensures r.steps + Distance(r.final) == Distance(s)
    ensures Between(s.currentPosition, r.final.currentPosition, s.targetPosition)
    ensures r.final.targetSpeed == s.targetSpeed && r.final.moveMode == s.moveMode
    ensures r.final.acceleration == s.acceleration
    ensures !s.inMove ==> r.steps == 0 && !r.final.inMove
    decreases |clocks|
  {
    if |clocks| == 0 then
      Run(s, 0)
    else
      var t := Manage(s, clocks[0].micros, clocks[0].millis);
      var rest := Drive(t.state, clocks[1..]);
      Run(rest.final, rest.steps + (if t.stepped then 1 else 0))
  }

  /** A move that can never step again: the cruise speed and the speed are
      zero, and a smooth move has latched its cruise point outside the
      deceleration zone, where ramp updates hold the speed. */
  predicate Stalled(s: MotorState)
  {
    && s.inMove && s.currentPosition != s.targetPosition
    && s.speed == 0 && s.targetSpeed == 0
    && (s.moveMode == Smooth ==> s.targetSpeedReached && !InDecelZone(s))
  }

  /** A stalled move stays in progress without a step, whatever the polls. */
  lemma {:induction false} StalledStaysStalled(s: MotorState, clocks: seq<Clock>)
    requires Stalled(s)
    ensures var r := Drive(s, clocks);
            r.steps == 0 && r.final.inMove && r.final.currentPosition == s.currentPosition
    decreases |clocks|
  {
    if |clocks| > 0 {
      var t := Manage(s, clocks[0].micros, clocks[0].millis);
      if s.moveMode == Smooth && Elapsed(clocks[0].millis, s.accelTimestamp) >= RampPeriodMillis {
        RampSpeedByZone(s, clocks[0].millis);
      }
      assert !t.stepped && Stalled(t.state);
      StalledStaysStalled(t.state, clocks[1..]);
    }
  }

  /** A smooth move with cruise speed 0 and at least three steps to go that
      has not stepped yet: still at its start, with the cruise point unlatched. */
  predicate ZeroCruiseBeforeFirstStep(s: MotorState)
  {
    && s.inMove && s.moveMode == Smooth && s.targetSpeed == 0
    && !s.targetSpeedReached && s.currentPosition == s.startPosition
    && Distance(s) >= 3
  }

  /** Starting a move with cruise speed 0 stalls a per-step move of any
      length at once, and leaves a smooth move of three or more steps
      waiting for its first step. */
  lemma ZeroCruiseStalls(s: MotorState)
    requires s.targetSpeed == 0 && s.currentPosition != s.targetPosition
    ensures s.moveMode != Smooth ==> Stalled(GoToTargetPosition(s))
    ensures s.moveMode == Smooth && Distance(s) >= 3 ==>
              ZeroCruiseBeforeFirstStep(GoToTargetPosition(s))
  {
  }

  /** A smooth move with cruise speed 0 and three or more steps to go is
      stalled by its first step: the step clamps the speed to 0 and latches
      the cruise point one step from the start, outside the deceleration
      zone. Until that step it keeps waiting. */
  lemma {:induction false} ZeroCruiseFirstStepStalls(s: MotorState, nowMicros: ULong, nowMillis: ULong)
    requires ZeroCruiseBeforeFirstStep(s)
    ensures var t := Manage(s, nowMicros, nowMillis);
            && (t.stepped ==> Stalled(t.state))
            && (!t.stepped ==> ZeroCruiseBeforeFirstStep(t.state))
  {
    var m := RampSpeed(s, nowMillis);
    var t := Manage(s, nowMicros, nowMillis);
    if t.stepped {
      assert t.state == EmitStep(m, nowMicros);
      assert t.state.targetSpeedReached && t.state.speed == 0;
      assert t.state.positionTargetSpeedReached == 1;
      assert Distance(t.state) >= 2;
      assert !InDecelZone(t.state);
    }
  }

  /** An idle smooth motor with cruise speed 0, the default increment and
      both timestamps at 0 (as after construction), `distance` steps below
      its target. */
  predicate ZeroCruiseShortMove(s: MotorState, distance: int)
  {
    && !s.inMove && s.moveMode == Smooth && s.targetSpeed == 0
    && s.acceleration == DefaultAcceleration
    && s.lastMovementTimestamp == 0 && s.accelTimestamp == 0
    && s.targetPosition == s.currentPosition + distance
  }

  /** Smooth moves of one or two steps do arrive with cruise speed 0: the
      latch puts them in the deceleration zone at once, where the speed is
      raised to the increment before each step. */
  lemma ZeroCruiseTwoStepMoveArrives(s: MotorState)
    requires ZeroCruiseShortMove(s, 2)
    ensures var r := Drive(GoToTargetPosition(s), [Clock(10000, 50), Clock(20000, 100), Clock(30000, 150)]);
            r.final.currentPosition == s.targetPosition && !r.final.inMove && r.steps == 2
  {
    var cs := [Clock(10000, 50), Clock(20000, 100), Clock(30000, 150)];
    var g := GoToTargetPosition(s);
    assert HalfDistance(g.startPosition, g.targetPosition) == 1;
    var t1 := Manage(g, 10000, 50);
    assert t1.stepped && t1.state.positionTargetSpeedReached == 1;
    var t2 := Manage(t1.state, 20000, 100);
    assert InDecelZone(t1.state);
    assert t2.stepped;
    var t3 := Manage(t2.state, 30000, 150);
    assert cs[1..][1..][1..] == [];
    assert Drive(t2.state, cs[1..][1..]) == Run(t3.state, 0);
    assert Drive(t1.state, cs[1..]) == Run(t3.state, 1);
  }

  lemma ZeroCruiseOneStepMoveArrives(s: MotorState)
    requires ZeroCruiseShortMove(s, 1)
    ensures var r := Drive(GoToTargetPosition(s), [Clock(10000, 50), Clock(20000, 100)]);
            r.final.currentPosition == s.targetPosition && !r.final.inMove && r.steps == 1
  {
    var cs := [Clock(10000, 50), Clock(20000, 100)];
    var g := GoToTargetPosition(s);
    assert HalfDistance(g.startPosition, g.targetPosition) == 1;
    var t1 := Manage(g, 10000, 50);
    assert t1.stepped;
    var t2 := Manage(t1.state, 20000, 100);
    assert cs[1..][1..] == [];
    assert Drive(t1.state, cs[1..]) == Run(t2.state, 0);
  }

  /** A move can always make progress: the cruise speed and the increment are
      positive, a per-step move runs at the cruise speed, and a smooth move has
      a non-zero speed unless it is still at its start and has not ramped yet. */
  predicate Live(s: MotorState)
  {
    s.inMove ==>
      && s.targetSpeed > 0
      && s.acceleration > 0
      && (s.moveMode != Smooth ==> s.speed == s.targetSpeed)
      && (s.moveMode == Smooth ==>
            s.speed > 0 || (s.currentPosition == s.startPosition && !s.targetSpeedReached))
  }

  /** A move started with a positive cruise speed and increment is live. */
  lemma GoToIsLive(s: MotorState)
    requires !s.inMove && s.targetSpeed > 0 && s.acceleration > 0
    ensures Live(GoToTargetPosition(s))
  {
  }

  /** A ramp update in a live move leaves a non-zero speed whenever there is
      still distance to cover. */
  lemma {:induction false} RampKeepsSpeed(s: MotorState, nowMillis: ULong)
    requires s.inMove && Live(s) && s.moveMode == Smooth
    requires s.currentPosition != s.targetPosition
    requires s.speed > 0 || Elapsed(nowMillis, s.accelTimestamp) >= RampPeriodMillis
    ensures RampSpeed(s, nowMillis).speed > 0
  {
    if Elapsed(nowMillis, s.accelTimestamp) >= RampPeriodMillis {
      RampSpeedByZone(s, nowMillis);
      if s.speed == 0 {
        assert s.startPosition != s.targetPosition;
        assert InAccelZone(s);
      }
    }
  }

  /** Every poll keeps a move live, whatever the clock readings. */
  lemma {:induction false} ManageKeepsLive(s: MotorState, nowMicros: ULong, nowMillis: ULong)
    requires Live(s)
    ensures Live(Manage(s, nowMicros, nowMillis).state)
  {
    if s.inMove && s.currentPosition != s.targetPosition && s.moveMode == Smooth {
      var m := RampSpeed(s, nowMillis);
      if Elapsed(nowMillis, s.accelTimestamp) >= RampPeriodMillis {
        RampKeepsSpeed(s, nowMillis);
      }
      assert m.speed > 0 || (m.currentPosition == m.startPosition && !m.targetSpeedReached);
    }
  }

  /** One poll one second after the last step (and, in smooth mode, at least
      one ramp period after the last ramp update) steps a live move that has
      not arrived. */
  lemma {:induction false} LiveTickSteps(s: MotorState, c: Clock)
    requires s.inMove && Live(s) && s.currentPosition != s.targetPosition
    requires Elapsed(c.micros, s.lastMovementTimestamp) >= MicrosPerSecond
    requires s.moveMode == Smooth ==> Elapsed(c.millis, s.accelTimestamp) >= RampPeriodMillis
    ensures Manage(s, c.micros, c.millis).stepped
  {
    var m := Ramped(s, c.millis);
    if s.moveMode == Smooth {
      RampKeepsSpeed(s, c.millis);
    }
    assert m.speed > 0;
    assert StepInterval(m.speed) <= MicrosPerSecond;
  }

  /** The clock readings one second apart starting at `c`. */
  function SecondTicks(c: Clock, n: nat): (cs: seq<Clock>)
    ensures |cs| == n
    ensures n > 0 ==> cs[0] == c
    decreases n
  {
    if n == 0 then []
    else [c] + SecondTicks(Clock(Advance(c.micros, MicrosPerSecond), Advance(c.millis, 1000)), n - 1)
  }

  /** Polled once a second, a live move arrives exactly at its target after
      one poll per remaining step plus one poll that ends the move. */
  lemma {:induction false} LiveMoveArrives(s: MotorState, c: Clock)
    requires s.inMove && Live(s)
    requires Elapsed(c.micros, s.lastMovementTimestamp) >= MicrosPerSecond
    requires s.moveMode == Smooth ==> Elapsed(c.millis, s.accelTimestamp) >= RampPeriodMillis
    ensures var r := Drive(s, SecondTicks(c, Distance(s) + 1));
            && r.final.currentPosition == s.targetPosition
            && !r.final.inMove
            && r.steps == Distance(s)
    decreases Distance(s)
  {
    var cs := SecondTicks(c, Distance(s) + 1);
    var t := Manage(s, c.micros, c.millis);
    if s.currentPosition == s.targetPosition {
      assert cs == [c];
      assert Drive(s, cs) == Run(t.state, 0);
    } else {
      LiveTickSteps(s, c);
      ManageKeepsLive(s, c.micros, c.millis);
      var next := Clock(Advance(c.micros, MicrosPerSecond), Advance(c.millis, 1000));
      ElapsedAfterAdvance(c.micros, MicrosPerSecond);
      ElapsedAfterAdvance(c.millis, 1000);
      if s.moveMode == Smooth {
        assert t.state.accelTimestamp == c.millis;
      }
      assert cs[1..] == SecondTicks(next, Distance(t.state) + 1);
      LiveMoveArrives(t.state, next);
    }
  }

  /** From rest, a move started with positive cruise speed and increment ends
      exactly at the target after one-second polls, in either move mode. */
  lemma {:induction false} MoveCompletes(s: MotorState, c: Clock)
    requires !s.inMove && s.targetSpeed > 0 && s.acceleration > 0
    requires s.currentPosition != s.targetPosition
    requires Elapsed(c.micros, s.lastMovementTimestamp) >= MicrosPerSecond
    requires s.moveMode == Smooth ==> Elapsed(c.millis, s.accelTimestamp) >= RampPeriodMillis
    ensures var r := Drive(GoToTargetPosition(s), SecondTicks(c, Distance(s) + 1));
            && r.final.currentPosition == s.targetPosition
            && !r.final.inMove
            && r.steps == Distance(s)
  {
    GoToIsLive(s);
    LiveMoveArrives(GoToTargetPosition(s), c);
  }
}

=== FILE: stepper_state.dfy ===
/** The StepperControl record, its initial value and its plain setters. */
module StepperState {
  import opened CArith
  import opened StepperConstants

  datatype Level = Low | High

  function LevelOf(b: bool): Level { if b then High else Low }

  /** Levels last written to the driver's outputs. `enable` is active low:
      Low keeps the driver powered and holding torque. The step pin is
      pulsed and always left Low, so it is not recorded. */
  datatype Pins = Pins(enable: Level, dir: Level, mode1: Level, mode2: Level, mode3: Level)

  /** The motor's whole state. Positions are signed step counts; speeds are
      steps per second; the temperatures are whole degrees. `lastMovementTimestamp`
      is a microsecond reading, `accelTimestamp` a millisecond reading. */
  datatype MotorState = MotorState(
    direction: int,
    stepMode: int,
    moveMode: int,
    inMove: bool,
    acceleration: nat,
    startPosition: int,
    currentPosition: int,
    targetPosition: int,
    speed: nat,
    targetSpeed: nat,
    targetSpeedReached: bool,
    positionTargetSpeedReached: int,
    compensationEnabled: bool,
    coefficient: int,
    lastCompensatedTemperature: int,
    compensationInitialized: bool,
    currentTemperature: int,
    lastMovementTimestamp: ULong,
    accelTimestamp: ULong,
    pins: Pins)

  /** Mode-select levels for a step-mode code: bit 2, bit 1 and bit 0 of the
      code drive pins 1, 2 and 3. */
  function ModePins(p: Pins, mode: int): (r: Pins)
    ensures r.enable == p.enable && r.dir == p.dir
  {
    p.(mode1 := LevelOf(Bit2(mode)), mode2 := LevelOf(Bit1(mode)), mode3 := LevelOf(Bit0(mode)))
  }

  /** The code the driver reads back from its three mode-select inputs. */
  function DecodeModePins(p: Pins): (m: nat)
    ensures m < 8
  {
    4 * (if p.mode1 == High then 1 else 0)
    + 2 * (if p.mode2 == High then 1 else 0)
    + (if p.mode3 == High then 1 else 0)
  }

  /** The pins carry the low three bits of any code, hence each of the four
      step-mode codes unchanged, and distinct codes give distinct pin levels. */
  lemma {:induction false} ModePinsRoundTrip(p: Pins, mode: int)
    ensures DecodeModePins(ModePins(p, mode)) == mode % 8
    ensures IsStepMode(mode) ==> DecodeModePins(ModePins(p, mode)) == mode
  {
    LowBits(mode);
  }

  /** The state right after construction. `targetSpeed` is left uninitialised
      by the constructor, so it is a parameter here. */
  function Init(targetSpeed: nat): (s: MotorState)
    ensures !s.inMove && s.speed == 0 && s.targetSpeed == targetSpeed
    ensures s.startPosition == 0 && s.currentPosition == 0 && s.targetPosition == 0
    ensures s.direction == Clockwise && s.moveMode == PerStep && s.stepMode == EighthStep
    ensures s.acceleration == DefaultAcceleration
    ensures !s.targetSpeedReached && s.positionTargetSpeedReached == 0
    ensures s.lastMovementTimestamp == 0 && s.accelTimestamp == 0
    ensures !s.compensationEnabled && !s.compensationInitialized
    ensures s.coefficient == 0 && s.currentTemperature == 0 && s.lastCompensatedTemperature == 0
    ensures s.pins == Pins(High, Low, Low, Low, Low)
  {
    var pins := Pins(enable := High, dir := Low, mode1 := Low, mode2 := Low, mode3 := Low);
    var s := MotorState(
      direction := Clockwise,
      stepMode := EighthStep,
      moveMode := PerStep,
      inMove := false,
      acceleration := DefaultAcceleration,
      startPosition := 0,
      currentPosition := 0,
      targetPosition := 0,
      speed := 0,
      targetSpeed := targetSpeed,
      targetSpeedReached := false,
      positionTargetSpeedReached := 0,
      compensationEnabled := false,
      coefficient := 0,
      lastCompensatedTemperature := 0,
      compensationInitialized := false,
      currentTemperature := 0,
      lastMovementTimestamp := 0,
      accelTimestamp := 0,
      pins := pins);
    SetStepMode(s, EighthStep)
  }

  function SetTargetPosition(s: MotorState, position: int): MotorState
  {
    s.(targetPosition := position)
  }

  function SetCurrentPosition(s: MotorState, position: int): MotorState
  {
    s.(currentPosition := position)
  }

  function SetDirection(s: MotorState, direction: int): MotorState
  {
    s.(direction := direction)
  }

  function SetMoveMode(s: MotorState, moveMode: int): MotorState
  {
    s.(moveMode := moveMode)
  }

  /** Stores the code and drives the mode-select pins; neither the target
      speed nor the current speed is re-clamped to the new mode's cap. */
  function SetStepMode(s: MotorState, mode: int): (r: MotorState)
    ensures r.stepMode == mode
    ensures DecodeModePins(r.pins) == mode % 8
    ensures r.pins.enable == s.pins.enable && r.pins.dir == s.pins.dir
    ensures r.speed == s.speed && r.targetSpeed == s.targetSpeed
    ensures r == s.(stepMode := mode, pins := r.pins)
  {
    ModePinsRoundTrip(s.pins, mode);
    s.(stepMode := mode, pins := ModePins(s.pins, mode))
  }

  /** Stores the requested cruise speed, reduced to the cap of the current
      step mode; a mode code outside the four known ones has no cap. */
  function SetSpeed(s: MotorState, speed: nat): (r: MotorState)
    ensures IsStepMode(s.stepMode) ==> r.targetSpeed <= MaxSpeed(s.stepMode)
    ensures IsStepMode(s.stepMode) && speed <= MaxSpeed(s.stepMode) ==> r.targetSpeed == speed
    ensures IsStepMode(s.stepMode) && speed >= MaxSpeed(s.stepMode) ==> r.targetSpeed == MaxSpeed(s.stepMode)
    ensures !IsStepMode(s.stepMode) ==> r.targetSpeed == speed
    ensures r == s.(targetSpeed := r.targetSpeed)
  {
    if s.stepMode == EighthStep && speed >= MaxSpeedEighthStep then
      s.(targetSpeed := MaxSpeedEighthStep)
    else if s.stepMode == SixteenthStep && speed >= MaxSpeedSixteenthStep then
      s.(targetSpeed := MaxSpeedSixteenthStep)
    else if s.stepMode == ThirtySecondStep && speed >= MaxSpeedThirtySecondStep then
      s.(targetSpeed := MaxSpeedThirtySecondStep)
    else if s.stepMode == SixtyFourthStep && speed >= MaxSpeedSixtyFourthStep then
      s.(targetSpeed := MaxSpeedSixtyFourthStep)
    else
      s.(targetSpeed := speed)
  }

  /** Clamping is idempotent: re-issuing the stored speed leaves it alone. */
  lemma SetSpeedIdempotent(s: MotorState, speed: nat)
    ensures SetSpeed(SetSpeed(s, speed), SetSpeed(s, speed).targetSpeed) == SetSpeed(s, speed)
  {
  }

  /** Changing the step mode keeps a target speed stored under the previous
      mode, even one above the new mode's cap; only a fresh SetSpeed clamps it. */
  lemma StepModeChangeKeepsSpeed(s: MotorState, mode: int)
    ensures SetStepMode(s, mode).targetSpeed == s.targetSpeed
    ensures IsStepMode(mode) ==> SetSpeed(SetStepMode(s, mode), s.targetSpeed).targetSpeed <= MaxSpeed(mode)
  {
  }

  /** The position, direction and move-mode setters write their own field and
      nothing else: reading back gives the written value, writing back what was
      read changes nothing, and a second write overrides the first. */
  lemma SetterLaws(s: MotorState, p: int, q: int)
    ensures SetTargetPosition(s, p).targetPosition == p && SetTargetPosition(s, s.targetPosition) == s
    ensures SetTargetPosition(SetTargetPosition(s, p), q) == SetTargetPosition(s, q)
    ensures SetCurrentPosition(s, p).currentPosition == p && SetCurrentPosition(s, s.currentPosition) == s
    ensures SetCurrentPosition(SetCurrentPosition(s, p), q) == SetCurrentPosition(s, q)
    ensures SetDirection(s, p).direction == p && SetDirection(s, s.direction) == s
    ensures SetDirection(SetDirection(s, p), q) == SetDirection(s, q)
    ensures SetMoveMode(s, p).moveMode == p && SetMoveMode(s, s.moveMode) == s
    ensures SetMoveMode(SetMoveMode(s, p), q) == SetMoveMode(s, q)
  {
  }
}

=== FILE: temperature.dfy ===
/** Temperature compensation: a correction computed from the temperature
    change since the last compensation, routed through the ordinary move start. */
module TemperatureCompensation {
  import opened StepperState
  import opened StepperMotion

  function SetCoefficient(s: MotorState, coefficient: int): MotorState
  {
    s.(coefficient := coefficient)
  }

  /** Records a temperature reading; the first reading after compensation is
      (re-)enabled also becomes the baseline. */
  function SetCurrentTemperature(s: MotorState, temperature: int): (r: MotorState)
    ensures r.currentTemperature == temperature && r.compensationInitialized
    ensures !s.compensationInitialized ==> r.lastCompensatedTemperature == temperature
    ensures s.compensationInitialized ==> r.lastCompensatedTemperature == s.lastCompensatedTemperature
    ensures r == s.(currentTemperature := temperature, compensationInitialized := true,
                    lastCompensatedTemperature := r.lastCompensatedTemperature)
  {
    var read := s.(currentTemperature := temperature);
    if !read.compensationInitialized then
      read.(lastCompensatedTemperature := read.currentTemperature, compensationInitialized := true)
    else
      read
  }

  /** Turns compensation on and discards the baseline, so that the next
      reading becomes a fresh one. */
  function EnableTemperatureCompensation(s: MotorState): (r: MotorState)
    ensures r.compensationEnabled && !r.compensationInitialized
    ensures r == s.(compensationEnabled := true, compensationInitialized := false)
  {
    s.(compensationInitialized := false, compensationEnabled := true)
  }

  /** Turns compensation off; the baseline is kept. */
  function DisableTemperatureCompensation(s: MotorState): (r: MotorState)
    ensures !r.compensationEnabled
    ensures r == s.(compensationEnabled := false)
  {
    s.(compensationEnabled := false)
  }

  /** Steps to add for the temperature change since the baseline. */
  function Correction(s: MotorState): (c: int)
    ensures s.lastCompensatedTemperature == s.currentTemperature ==> c == 0
    ensures s.coefficient == 0 ==> c == 0
    ensures c == 0 <==> s.lastCompensatedTemperature == s.currentTemperature || s.coefficient == 0
  {
    (s.lastCompensatedTemperature - s.currentTemperature) * s.coefficient
  }

  /** Moves by the correction when a baseline exists, no move is in progress
      and the correction is non-zero; the current reading becomes the new
      baseline. The enabled flag is not consulted here. */
  function CompensateTemperature(s: MotorState): (r: MotorState)
    ensures !s.compensationInitialized || s.inMove || Correction(s) == 0 ==> r == s
    ensures s.compensationInitialized && !s.inMove && Correction(s) != 0 ==>
      && r.targetPosition == s.currentPosition + Correction(s)
      && r.lastCompensatedTemperature == s.currentTemperature
      && Correction(r) == 0
      && r.inMove && r.startPosition == s.currentPosition && r.pins.enable == Low
      && r == GoToTargetPosition(s.(lastCompensatedTemperature := s.currentTemperature,
                                    targetPosition := s.currentPosition + Correction(s)))
  {
    if s.compensationInitialized && !s.inMove then
      var correction := (s.lastCompensatedTemperature - s.currentTemperature) * s.coefficient;
      if correction != 0 then
        var rebased := s.(lastCompensatedTemperature := s.currentTemperature);
        GoToTargetPosition(SetTargetPosition(rebased, rebased.currentPosition + correction))
      else
        s
    else
      s
  }

  /** A second compensation with no new reading does nothing: either the first
      one started a move, or the correction is already zero. */
  lemma {:induction false} CompensateIdempotent(s: MotorState)
    ensures CompensateTemperature(CompensateTemperature(s)) == CompensateTemperature(s)
  {
    var r := CompensateTemperature(s);
    if r != s {
      assert r.inMove;
    }
  }

  /** Once a correction has been applied, the same temperature yields no
      further correction, even after the move has ended. */
  lemma SameTemperatureNoSecondCorrection(s: MotorState, later: MotorState)
    requires s.compensationInitialized && !s.inMove && Correction(s) != 0
    requires !later.inMove && later.compensationInitialized
    requires later.lastCompensatedTemperature == CompensateTemperature(s).lastCompensatedTemperature
    requires later.currentTemperature == s.currentTemperature
    ensures CompensateTemperature(later) == later
  {
  }

  /** Re-enabling forces a fresh baseline: nothing is corrected until a
      reading arrives, and that first reading itself yields no correction. */
  lemma EnableNeedsFreshBaseline(s: MotorState, temperature: int)
    ensures var e := EnableTemperatureCompensation(s);
            && CompensateTemperature(e) == e
            && CompensateTemperature(SetCurrentTemperature(e, temperature)) == SetCurrentTemperature(e, temperature)
  {
  }

  /** The coefficient scales the correction and touches nothing else. */
  lemma CoefficientScalesCorrection(s: MotorState, coefficient: int)
    ensures Correction(SetCoefficient(s, coefficient))
         == (s.lastCompensatedTemperature - s.currentTemperature) * coefficient
    ensures SetCoefficient(SetCoefficient(s, coefficient), s.coefficient) == s
  {
  }

  /** Disabling keeps the baseline, and later readings do not move it. */
  lemma DisableKeepsBaseline(s: MotorState, temperature: int)
    requires s.compensationInitialized
    ensures var d := SetCurrentTemperature(DisableTemperatureCompensation(s), temperature);
            && d.compensationInitialized
            && d.lastCompensatedTemperature == s.lastCompensatedTemperature
            && Correction(d) == (s.lastCompensatedTemperature - temperature) * s.coefficient
  {
  }
}
